=== FILE: README.md ===
# simi-scan-frontend client logic, in Dafny

A model of the client-side logic of the simi-scan mobile app: the sign-up
password policy and the order of its form checks, the sign-in submission, the
four zustand stores (user form, session, signature list, alert message), the
menu's logout, list fetch, mount guard and image-source builder, the alert
banner lookups, and the local flags of the info and analyze screens.

Every backend call (`signUp`, `signInWithPassword`, `signOut`, the
`signature_infos` select) is a parameter: the awaited call ends in an
`Outcome` (`Ok`, `Failed(message)` or `Threw`), or, for the select, in the
`data`/`error` pair it resolves to. Every handler is a pure function of the
screen state and those outcomes. Most return a `Run`: the new state plus the
effects produced in order (native alerts, navigation, backend requests,
timers). Handlers with no effect of their own return the new state alone
(for example `Menu.ReceiveSignatures`, `Info.HandleUploadImage`, the toggles
and the store setters); `Menu.OnMount` returns its effects alone, and
`Analyze.Press` also says whether the handler ran. `SignUp.BeginSignUp`
returns either the rejecting alert or the request it awaits. The
sign-up and sign-in handlers are split at their `await` (`BeginSignUp` /
`ResumeSignUp`, `BeginSignIn` / `ResumeSignIn`) so that the state during the
call can be stated; `Menu.HandleLogout` takes the outcome of its awaited
`signOut` as a parameter and is modelled in one piece.

Form text is held as `JsString`, a sequence of UTF-16 code units, because the
password regular expression counts code units. Other text (messages, routes,
session fields, signature rows) is a Dafny `string`: the model only passes it
along and compares it.

Modules follow the source files: `UserStore`, `SessionStore`,
`SignatureStore`, `AlertsStore` (store/*.ts), `Alerts`
(components/Alerts.tsx), `PasswordPolicy` and `SignUp` (app/auth/signup.tsx),
`SignIn` (app/auth/signin.tsx), `DataUri` and `Menu` (app/menu.tsx), `Info`
(app/info.tsx), `Analyze` (app/analyze.tsx), and `Common` for the shared
vocabulary.

Behaviour the model makes explicit, all as the code is written:

- The password test is the regular expression
  `/^(?=.*\d)(?=.*[a-z])(?=.*[A-Z]).{6,20}$/` with no flags. `PasswordPolicy.Matches`
  follows it piece by piece. `ValidatePassword` is proved equivalent to:
  6 to 20 code units, an ASCII digit, an ASCII lower-case and an ASCII
  upper-case letter, and none of LF, CR, U+2028, U+2029. The policy message
  names only the classes, not the length bounds or the line-terminator rule.
- Sign-in leaves `loading` set after a successful login; only the error path
  clears it. The Login button has no `disabled` guard. The `alert` state the
  handler sets is never rendered by the screen.
- If `signUp` rejects (rather than resolving with an error), the handler stops
  at the `await`: `loading` stays set, and the Sign Up button, disabled while
  `loading`, ignores later presses until something else clears `loading`. A
  failed sign-in does (app/auth/signin.tsx:47), because `loading` lives in the
  shared user store.
- Logout: a rejected `signOut` is caught and logged, the stores are kept, and
  the navigation to sign-in still happens. An error result alerts and stays.
- The camera component never calls `onImageCaptured`. Once "Take a photo" opens
  the camera, it stays open and the image never changes again. Both sections of
  the info screen share one `imageUri` and one `isCapturing`.
- Nothing in the analyze screen clears `isAnalyzing`. The button is disabled
  while the flag is set, so only the first press runs the handler.

## Model

| member | source | states |
|---|---|---|
| UserStore.Initial | store/users.ts:21-27 | every field of the new user store reads as the empty string or `false` |
| UserStore.Set | store/users.ts:28-34 | `set({ f })` makes field `f` read the given value and every other field read what it read before |
| UserStore.SetUnchanged | store/users.ts:28-34 | writing a field's current value back leaves the record equal to the original |
| UserStore.SetIdempotent | store/users.ts:28-34 | applying the same setter twice equals applying it once |
| UserStore.SetLastWriteWins | store/users.ts:28-34 | of two writes to one field, the second decides the record |
| UserStore.SetCommutes | store/users.ts:28-34 | writes to two different fields commute |
| UserStore.SetName | store/users.ts:28 | `setName` is the field write on `name` alone |
| UserStore.SetEmail | store/users.ts:29 | `setEmail` is the field write on `email` alone |
| UserStore.SetPassword | store/users.ts:30 | `setPassword` is the field write on `password` alone |
| UserStore.SetConfirmPassword | store/users.ts:31 | `setConfirmPassword` is the field write on `confirmPassword` alone |
| UserStore.SetIsPasswordVisible | store/users.ts:32 | `setIsPasswordVisible` is the field write on `isPasswordVisible` alone |
| UserStore.SetLoading | store/users.ts:33 | `setLoading` is the field write on `loading` alone |
| UserStore.SetIsChecked | store/users.ts:34 | `setIsChecked` is the field write on `isChecked` alone |
| UserStore.TogglePasswordVisibility | app/auth/signup.tsx:75-77 | the eye icon flips `isPasswordVisible` and keeps every other field; sign-in defines the same handler (app/auth/signin.tsx:58-60) |
| UserStore.ToggleTwiceIsIdentity | app/auth/signup.tsx:75-77 | toggling visibility twice gives back the original record |
| SessionStore.Initial | store/session.ts:29 | the new store holds exactly `{}`: no id, no access token, not signed in |
| SessionStore.SetSession | store/session.ts:30 | the stored session becomes the argument as a whole; the store is signed in exactly when the new token is truthy |
| SessionStore.SetSessionIdempotent | store/session.ts:30 | setting the same session twice equals setting it once |
| SessionStore.SetSessionLastWriteWins | store/session.ts:30 | of two `setSession` calls the second decides the store |
| SessionStore.ClearedSessionIsSignedOut | store/session.ts:30 | after `setSession({})` the store is signed out and equal to the initial store |
| SignatureStore.Initial | store/signatures.ts:19 | the new list is empty |
| SignatureStore.SetSignatures | store/signatures.ts:20 | the list becomes the argument, same length and same element at every index |
| SignatureStore.SetSignaturesIdempotent | store/signatures.ts:20 | setting the same list twice equals setting it once |
| SignatureStore.SetSignaturesLastWriteWins | store/signatures.ts:20 | of two `setSignatures` calls the second decides the list |
| SignatureStore.ClearEmpties | store/signatures.ts:20 | `setSignatures([])` empties the list whatever it held |
| AlertsStore.Initial | store/alerts.ts:9 | the message starts empty |
| AlertsStore.SetMessage | store/alerts.ts:10 | the message becomes exactly the argument |
| AlertsStore.SetMessageIdempotent | store/alerts.ts:10 | setting the same message twice equals setting it once |
| AlertsStore.SetMessageLastWriteWins | store/alerts.ts:10 | after any non-empty sequence of `setMessage` calls the message is the last one's |
| Alerts.DeclaredNamesAreTypeNames | components/Alerts.tsx:7 | the declared type strings are exactly the names of the four alert types |
| Alerts.GetAlertStyle | components/Alerts.tsx:12-25 | each declared type gets the style of the same name; any other string gets the info style |
| Alerts.GetIconName | components/Alerts.tsx:27-40 | success, error, warning, info get check-circle, alert-circle, alert, information; any other string gets information |
| Alerts.LookupsInjective | components/Alerts.tsx:12-40 | both lookups give different results for different declared types |
| Alerts.StyleAndIconAgree | components/Alerts.tsx:12-40 | for every type string the style and the icon come from the same branch |
| Alerts.UndeclaredIsInfo | components/Alerts.tsx:22-23 | a string outside the declared four shows the info style and icon |
| PasswordPolicy.ValidatePassword | app/auth/signup.tsx:66-69 | the regular expression test passes iff the password has 6 to 20 code units, an ASCII digit, lower-case and upper-case letter, and no line terminator |
| PasswordPolicy.MatchesCharacterised | app/auth/signup.tsx:67 | the pattern, read under ECMAScript semantics piece by piece, matches exactly the passwords of that policy (both directions) |
| PasswordPolicy.LookaheadIsContains | app/auth/signup.tsx:67 | on a line-terminator-free password, a `(?=.*X)` lookahead holds iff some unit is of class X |
| PasswordPolicy.LengthOutOfRangeRejected | app/auth/signup.tsx:67 | a password shorter than 6 or longer than 20 code units is rejected whatever it holds |
| PasswordPolicy.LineTerminatorRejected | app/auth/signup.tsx:67 | a line terminator anywhere rejects the password |
| PasswordPolicy.ExampleAccepted | app/auth/signup.tsx:67 | "Abc123" passes the test |
| PasswordPolicy.ExampleNoUpperRejected | app/auth/signup.tsx:67 | "abc123" fails the test for want of an upper-case letter |
| SignUp.FirstFailedCheck | app/auth/signup.tsx:35-50 | the policy failure is reported first; a mismatch only when the policy passes; the terms only when both pass; none iff all three pass |
| SignUp.BeginSignUp | app/auth/signup.tsx:34-54 | a failed check alerts its message and keeps the form; otherwise `loading` is set, nothing else changes, and the request carries only email and password |
| SignUp.ResumeSignUp | app/auth/signup.tsx:54-63 | an error alerts its message; success alerts "Please check your inbox…" and then navigates to verification; both clear `loading` alone; a rejected call does nothing more |
| SignUp.SignUpWithEmail | app/auth/signup.tsx:34-64 | a failed check alerts and makes no backend request; otherwise exactly one sign-up request comes first; navigation happens iff all checks pass and the call succeeds |
| SignUp.PressSignUp | app/auth/signup.tsx:145-149 | while `loading` is set the disabled button does nothing; otherwise a press runs the handler |
| SignUp.ToggleTerms | app/auth/signup.tsx:157-161 | the checkbox flips `isChecked` and keeps every other field |
| SignUp.NameNotSent | app/auth/signup.tsx:54 | the handler's effects do not depend on the `name` field |
| SignUp.PolicyReportedFirst | app/auth/signup.tsx:35-40 | a policy failure gives the policy alert alone, whatever the confirmation and checkbox hold |
| SignUp.RejectionDisablesButton | app/auth/signup.tsx:52-63 | after a rejected sign-up call `loading` stays set and further presses do nothing |
| SignIn.FailedSignInReenablesSignUp | app/auth/signin.tsx:39-48 | a failed sign-in clears the shared `loading` flag that a rejected sign-up left set, and the next Sign Up press sends the request again |
| SignIn.Mount | app/auth/signin.tsx:17-20 | the screen mounts over the current store with the alert state null |
| SignIn.BeginSignIn | app/auth/signin.tsx:40-44 | `loading` is set, nothing else changes, and the request carries the form's email and password |
| SignIn.ResumeSignIn | app/auth/signin.tsx:46-55 | no form field but `loading` ever changes; an error clears `loading`, records an error alert with its message and produces no effect; success keeps the form as it is (`loading` still set), records the success alert and navigates to /info; a rejection changes nothing |
| SignIn.SignInWithEmail | app/auth/signin.tsx:39-56 | exactly one sign-in request, issued first and unconditionally; `loading` ends set iff the outcome is not an error; navigation iff success |
| SignIn.PressLogin | app/auth/signin.tsx:112 | a run of presses issues one backend request per press, even while `loading` is set |
| SignIn.LoadingStaysSetAfterSuccess | app/auth/signin.tsx:46-55 | after a successful login `loading` is still set |
| SignIn.NoClientValidation | app/auth/signin.tsx:39-44 | the request is made for any email and password, with no check first |
| DataUri.BuildParse | app/menu.tsx:26 | any URL that `Parse` (the split of section 3 of RFC 2397 at the first comma, case-sensitive, with no media-type or payload syntax check) accepts is rebuilt unchanged from its parts |
| DataUri.ParseBuild | app/menu.tsx:26 | parsing a built `data:` URL gives back its media type, base64 flag and payload, whatever the payload holds |
| Menu.ConvertBase64ToImageSource | app/menu.tsx:25-27 | the result is the fixed prefix `data:image/png;base64,` followed by exactly the argument, and parses as a base64 PNG data URL with that payload |
| Menu.ConvertInjective | app/menu.tsx:25-27 | different stored strings give different image sources |
| Menu.HandleLogout | app/menu.tsx:84-121 | the dialog comes first; Cancel changes nothing and calls nothing; an error alerts and keeps the stores; success empties both stores; navigation to sign-in iff Logout was chosen and the call did not return an error, including when it threw |
| Menu.ReceiveSignatures | app/menu.tsx:133-136 | the list becomes the returned rows, or empty when there are none; the session is kept |
| Menu.ReceiveIgnoresError | app/menu.tsx:133-136 | the reported error does not change what the list becomes |
| Menu.OnMount | app/menu.tsx:139-145 | navigation to sign-in iff the access token is missing or empty; the fetch for the session's user id runs in either case, last |
| Menu.MountAfterLogoutRedirects | app/menu.tsx:139-145 | after a successful logout the mount guard redirects to sign-in |
| Info.ToggleCameraFacing | app/info.tsx:54-56 | the facing always changes: back and front swap |
| Info.ToggleTwiceIsIdentity | app/info.tsx:54-56 | flipping the camera twice restores the facing |
| Info.Initial | app/info.tsx:99-101 | no image, not saving, camera closed, no timer pending, so the timer invariant holds from the start |
| Info.HandleImageCaptured | app/info.tsx:114-117 | the image becomes the given uri and the camera closes; the save state is kept |
| Info.HandleUploadImage | app/info.tsx:119-130 | a cancelled pick keeps the screen; otherwise the image becomes the result's uri; flags are kept |
| Info.HandleSaving | app/info.tsx:104-112 | `isSaving` is set and one 3000 ms timer is scheduled |
| Info.TimerFires | app/info.tsx:108-111 | a pending timer clears `isSaving` and navigates to /analyze; with none pending nothing happens |
| Info.Step | app/info.tsx:161-250 | "Take a photo" opens the camera; an upload with the camera closed runs the picker handler; a save press runs `handleSaving` when not saving and does nothing while saving; the timer's callback runs; capture does nothing; only a completed upload with the camera closed changes the image, and the camera never closes |
| Info.SectionsShareState | app/info.tsx:161-238 | a photo, capture, upload, save or timer event does the same whichever section it is sent from, since both sections read one `imageUri` and one `isCapturing` |
| Info.StepPreservesValid | app/info.tsx:104-112 | every event keeps at most one timer pending, pending exactly while saving |
| Info.RunPreservesValid | app/info.tsx:240-245 | the same holds after any sequence of events |
| Info.CameraNeverCloses | app/info.tsx:46-52 | once the camera is open, no sequence of events closes it or changes the image |
| Info.SaveButton | app/info.tsx:240-250 | the caption is "Saving" and presses are refused exactly while saving |
| Analyze.Initial | app/analyze.tsx:8 | `isAnalyzing` starts false |
| Analyze.HandlePress | app/analyze.tsx:10-12 | the handler sets `isAnalyzing` |
| Analyze.Press | app/analyze.tsx:36-39 | a press runs the handler iff the screen is not analyzing, and leaves it analyzing |
| Analyze.PressMany | app/analyze.tsx:36-44 | after n presses the screen is analyzing iff it was or n > 0, and the handler ran once iff the screen was idle and n > 0 |
| Analyze.Label | app/analyze.tsx:40-42 | the caption is "Analyzing" iff analyzing, "Analyze" otherwise |
| Analyze.NeverResets | app/analyze.tsx:7-47 | once analyzing, any number of presses leaves the screen unchanged and runs nothing |

## Left out

- The backend service (`supabase.auth.*` and the table select): foreign calls, modelled only by the outcome they end in.
- The camera, the permission prompts and the image picker: platform I/O; the picker's answer is an event parameter, and the model takes `result.uri` as the code reads it.
- The real clock of `setTimeout`: the timer is a discrete "fires" event.
- `console.log` / `console.error` calls: they change no state.
- Rendering, styles and animation, the `InputComponent` focus flag, and the date line of a signature row (`toLocaleDateString`, locale-dependent library output).
- The plain navigation handlers (`alreadyHaveAccount`, `toRegister`, `navigateToInfo`, a row's "Open" link) and the routing and layout files.
- The screens under app/(auth)/: its sign-in and sign-up screens are older copies that keep the form in local state, make no backend call and only navigate; its verification screen (one-time code entry, resend countdown) is a separate flow after sign-up that this model does not follow.
- app/analyze/[id].tsx: a per-signature analyze screen whose only logic is the same never-cleared `isAnalyzing` flag as app/analyze.tsx, modelled once in `Analyze`.
- The scan request, its timeout, the similarity classifier and result persistence: none of them is in the code modelled here.
- Re-render timing: every event (`Info.Step`, `SignUp.PressSignUp`, `Analyze.Press`) sees the state left by the one before it, re-rendered. React applies `disabled={isSaving}`, `disabled={loading}` and `disabled={isAnalyzing}` only once it commits the re-render, so two taps in the same frame can both run the handler (two save timers, two sign-up calls). `Info.RunPreservesValid` and the "only the first press runs" results hold only under this assumption.
- The camera facing: each section's camera keeps its own `facing`, toggled by `Info.ToggleCameraFacing`; it is not part of `InfoState`, and the flip is not an `Event`, because it changes nothing the screen's handlers read.
- The title ("Confirmation") and button labels of the logout dialog: `Menu.HandleLogout` records the dialog by its question only, since the title and labels carry no logic.

=== FILE: alerts.dfy ===
/**
 The in-app alert banner (components/Alerts.tsx): it picks a background style
 and an icon from the alert's `type` string. The declared type admits four
 values; both lookups also carry a `default` branch for any other string.
 */
module Alerts {

  /** The four declared alert types. */
  datatype AlertType = Success | Error | Warning | Info

  /** The string literal of each declared type. */
  function TypeName(t: AlertType): string {
    match t
    case Success => "success"
    case Error => "error"
    case Warning => "warning"
    case Info => "info"
  }

  /** The type strings the declaration admits. */
  const DeclaredNames: set<string> := {"success", "error", "warning", "info"}

  lemma DeclaredNamesAreTypeNames(kind: string)
    ensures kind in DeclaredNames <==> exists t :: TypeName(t) == kind
  {
    if kind == "success" { assert TypeName(Success) == kind; }
    if kind == "error" { assert TypeName(Error) == kind; }
    if kind == "warning" { assert TypeName(Warning) == kind; }
    if kind == "info" { assert TypeName(Info) == kind; }
  }

  /** An alert record `{ type, message }`. */
  datatype AlertRecord = AlertRecord(kind: AlertType, message: string)

  /** A banner style, reduced to the one property that tells them apart. */
  datatype Style = Style(backgroundColor: string)

  const SuccessStyle: Style := Style("#4CAF50")
  const ErrorStyle: Style := Style("#F44336")
  const WarningStyle: Style := Style("#FFEB3B")
  const InfoStyle: Style := Style("#2196F3")

  /** `getAlertStyle`: a switch on the type string with a default. */
  function GetAlertStyle(kind: string): (r: Style)
    ensures r in {SuccessStyle, ErrorStyle, WarningStyle, InfoStyle}
    ensures forall t :: kind == TypeName(t) ==> r == StyleOf(t)
    ensures kind !in DeclaredNames ==> r == InfoStyle
  {
    match kind
    case "success" => SuccessStyle
    case "error" => ErrorStyle
    case "warning" => WarningStyle
    case "info" => InfoStyle
    case _ => InfoStyle
  }

  /** `getIconName`: a switch on the type string with a default. */
  function GetIconName(kind: string): (r: string)
    ensures r in {"check-circle", "alert-circle", "alert", "information"}
    ensures forall t :: kind == TypeName(t) ==> r == IconOf(t)
    ensures kind !in DeclaredNames ==> r == "information"
  {
    match kind
    case "success" => "check-circle"
    case "error" => "alert-circle"
    case "warning" => "alert"
    case "info" => "information"
    case _ => "information"
  }

  /** Style of each declared type, as a table independent of the switch. */
  function StyleOf(t: AlertType): Style {
    match t
    case Success => SuccessStyle
    case Error => ErrorStyle
    case Warning => WarningStyle
    case Info => InfoStyle
  }

  /** Icon of each declared type, as a table independent of the switch. */
  function IconOf(t: AlertType): string {
    match t
    case Success => "check-circle"
    case Error => "alert-circle"
    case Warning => "alert"
    case Info => "information"
  }

  /** The two lookups tell the four declared types apart. */
  lemma LookupsInjective(t: AlertType, u: AlertType)
    ensures GetAlertStyle(TypeName(t)) == GetAlertStyle(TypeName(u)) ==> t == u
    ensures GetIconName(TypeName(t)) == GetIconName(TypeName(u)) ==> t == u
  {
  }

  /**
   For every type string, both lookups land on the same branch: the info
   style is chosen exactly when the information icon is.
   */
  lemma StyleAndIconAgree(kind: string)
    ensures GetAlertStyle(kind) == InfoStyle <==> GetIconName(kind) == "information"
    ensures GetAlertStyle(kind) == SuccessStyle <==> GetIconName(kind) == "check-circle"
    ensures GetAlertStyle(kind) == ErrorStyle <==> GetIconName(kind) == "alert-circle"
    ensures GetAlertStyle(kind) == WarningStyle <==> GetIconName(kind) == "alert"
  {
  }

  /** Any string outside the declared four is shown as an info banner. */
  lemma UndeclaredIsInfo(kind: string)
    requires kind !in DeclaredNames
    ensures GetAlertStyle(kind) == InfoStyle && GetIconName(kind) == "information"
  {
  }
}

=== FILE: alerts_store.dfy ===
/**
 The alert message store (`useAlertsStore`): one message string, initially
 empty, replaced by `setMessage`.
 */
module AlertsStore {

  datatype Store = Store(message: string)

  function Initial(): (st: Store)
    ensures st.message == ""
  {
    Store("")
  }

  /** `set({ message })`: the message becomes exactly `m`. */
  function SetMessage(st: Store, m: string): (r: Store)
    ensures r.message == m
  {
    Store(m)
  }

  lemma SetMessageIdempotent(st: Store, m: string)
    ensures SetMessage(SetMessage(st, m), m) == SetMessage(st, m)
  {
  }

  /** After any sequence of `setMessage` calls the last one decides the message. */
  lemma {:induction false} SetMessageLastWriteWins(st: Store, ms: seq<string>)
    requires |ms| > 0
    ensures ApplyAll(st, ms).message == ms[|ms| - 1]
    decreases ms
  {
    if |ms| > 1 {
      SetMessageLastWriteWins(SetMessage(st, ms[0]), ms[1..]);
    }
  }

  /** The store after `setMessage(ms[0])`, then `setMessage(ms[1])`, and so on. */
  function ApplyAll(st: Store, ms: seq<string>): Store
    decreases ms
  {
    if ms == [] then st else ApplyAll(SetMessage(st, ms[0]), ms[1..])
  }
}

=== FILE: analyze.dfy ===
/**
 The analyze screen (app/analyze.tsx): an "Analyze" button whose handler sets
 `isAnalyzing`. The button is disabled while the flag is set, and nothing in
 the screen clears it.
 */
module Analyze {

  datatype Screen = Screen(isAnalyzing: bool)

  function Initial(): (s: Screen)
    ensures !s.isAnalyzing
  {
    Screen(false)
  }

  /** `handlePress`: `setIsAnalyzing(true)`. */
  function HandlePress(s: Screen): (r: Screen)
    ensures r.isAnalyzing
  {
    Screen(true)
  }

  /** A press on the button: the screen after it, and whether the handler ran. */
  function Press(s: Screen): (r: (Screen, bool))
    ensures r.1 <==> !s.isAnalyzing
    ensures r.0.isAnalyzing
  {
    if s.isAnalyzing then (s, false) else (HandlePress(s), true)
  }

  /**
   `n` presses in a row: the flag is set as soon as one press lands, and only
   the first press of a screen that was idle runs the handler.
   */
  function PressMany(s: Screen, n: nat): (r: (Screen, nat))
    ensures r.0.isAnalyzing <==> s.isAnalyzing || n > 0
    ensures r.1 == (if !s.isAnalyzing && n > 0 then 1 else 0)
    decreases n
  {
    if n == 0 then (s, 0)
    else
      var (t, ran) := Press(s);
      var (u, k) := PressMany(t, n - 1);
      (u, k + (if ran then 1 else 0))
  }

  const AnalyzingLabel: string := "Analyzing"
  const AnalyzeLabel: string := "Analyze"

  /** The button caption. */
  function Label(s: Screen): (r: string)
    ensures r == AnalyzingLabel <==> s.isAnalyzing
    ensures r == AnalyzeLabel <==> !s.isAnalyzing
  {
    if s.isAnalyzing then AnalyzingLabel else AnalyzeLabel
  }

  /** Nothing clears the flag: once analyzing, every press leaves the screen as it is. */
  lemma NeverResets(s: Screen, n: nat)
    requires s.isAnalyzing
    ensures PressMany(s, n) == (s, 0)
  {
  }
}

=== FILE: common.dfy ===
/**
 Shared vocabulary of the client model: optional values, JavaScript text as
 UTF-16 code units, the outcome of a backend call, and the observable effects
 a screen handler produces (native alerts, navigation, backend requests,
 timers).
 */
module Common {

  /** `null`/`undefined` versus a present value. */
  datatype Option<+T> = None | Some(value: T) {
    /** JavaScript `x || fallback` for a value whose present form is always truthy. */
    function GetOr(fallback: T): T {
      match this
      case Some(v) => v
      case None => fallback
    }
  }

  /** One UTF-16 code unit: JavaScript strings are sequences of these. */
  newtype CodeUnit = x: int | 0 <= x < 0x1_0000

  /** Text typed into a form field, as JavaScript holds it. */
  type JsString = seq<CodeUnit>

  /** JavaScript truthiness of an optional string: absent and "" are both falsy. */
  predicate Truthy(s: Option<string>) {
    s.Some? && s.value != ""
  }

  /**
   The three ways an awaited backend call can end: it resolves with no error,
   it resolves with `{ error }` carrying a message, or the promise rejects.
   */
  datatype Outcome = Ok | Failed(message: string) | Threw

  /** What a handler does outside its own state, in the order it does it. */
  datatype Effect =
    | ShowAlert(text: string)                           // Alert.alert(text)
    | Navigate(route: string)                           // router.push(route)
    | SignUpRequest(email: JsString, password: JsString) // supabase.auth.signUp
    | SignInRequest(email: JsString, password: JsString) // supabase.auth.signInWithPassword
    | SignOutRequest                                    // supabase.auth.signOut
    | SelectSignatures(userId: Option<string>)          // select * ... eq("user_id", id)
    | ScheduleTimer(delayMs: nat)                       // setTimeout(_, delayMs)

  /** A call into the backend service, as opposed to a local alert, route change or timer. */
  predicate IsBackendRequest(e: Effect) {
    e.SignUpRequest? || e.SignInRequest? || e.SignOutRequest? || e.SelectSignatures?
  }

  /** A handler's result: the state it leaves and the effects it produced. */
  datatype Run<S> = Run(state: S, effects: seq<Effect>)

  /** Number of effects in `es` that satisfy `p`. */
  function Count(es: seq<Effect>, p: Effect -> bool): (n: nat)
    ensures n <= |es|
    ensures n == 0 <==> forall i :: 0 <= i < |es| ==> !p(es[i])
  {
    if es == [] then 0
    else (if p(es[0]) then 1 else 0) + Count(es[1..], p)
  }

  lemma {:induction false} CountAppend(a: seq<Effect>, b: seq<Effect>, p: Effect -> bool)
    ensures Count(a + b, p) == Count(a, p) + Count(b, p)
  {
    if a == [] {
      assert a + b == b;
    } else {
      assert (a + b)[1..] == a[1..] + b;
      CountAppend(a[1..], b, p);
    }
  }

  /** Routes the model navigates to. */
  const SignInRoute: string := "/(auth)/signin"
  const VerificationRoute: string := "/auth/verification"
  const InfoRoute: string := "/info"
  const AnalyzeRoute: string := "/analyze"
}

=== FILE: data_uri.dfy ===
/**
 The `data:` URL scheme of RFC 2397, section 3:

     dataurl := "data:" [ mediatype ] [ ";base64" ] "," data

 `Build` writes the three parts in that order; `Parse` splits a URL at the
 first comma after the scheme and strips a trailing ";base64" from the
 header. Neither looks inside the payload: it is not checked against the
 base64 alphabet.
 */
module DataUri {
  import opened Common

  const Scheme: string := "data:"
  const Base64Marker: string := ";base64"

  datatype Parts = Parts(mediaType: string, base64: bool, data: string)

  function Build(p: Parts): string {
    Scheme + p.mediaType + (if p.base64 then Base64Marker else "") + "," + p.data
  }

  /** Position of the first `c` in `s`, if any. */
  function FirstIndexOf(s: string, c: char): (r: Option<nat>)
    ensures r.None? <==> c !in s
    ensures r.Some? ==> r.value < |s| && s[r.value] == c && c !in s[..r.value]
  {
    if s == [] then None
    else if s[0] == c then Some(0)
    else match FirstIndexOf(s[1..], c)
      case None => None
      case Some(k) =>
        assert s[..k + 1] == [s[0]] + s[1..][..k];
        Some(k + 1)
  }

  predicate EndsWithBase64Marker(header: string) {
    |header| >= |Base64Marker| && header[|header| - |Base64Marker|..] == Base64Marker
  }

  /** Splits a `data:` URL into its parts; `None` when the scheme or the comma is missing. */
  function Parse(u: string): Option<Parts> {
    if |u| < |Scheme| || u[..|Scheme|] != Scheme then None
    else
      var rest := u[|Scheme|..];
      match FirstIndexOf(rest, ',')
      case None => None
      case Some(k) =>
        var header := rest[..k];
        if EndsWithBase64Marker(header) then
          Some(Parts(header[..|header| - |Base64Marker|], true, rest[k + 1..]))
        else
          Some(Parts(header, false, rest[k + 1..]))
  }

  lemma SplitAround(s: string, k: nat)
    requires k < |s|
    ensures s == s[..k] + [s[k]] + s[k + 1..]
  {
  }

  /** Whatever `Parse` accepts, `Build` writes back unchanged. */
  lemma BuildParse(u: string)
    requires Parse(u).Some?
    ensures Build(Parse(u).value) == u
  {
    var p := Parse(u).value;
    var rest := u[|Scheme|..];
    var k := FirstIndexOf(rest, ',').value;
    var header := rest[..k];
    assert p.data == rest[k + 1..];
    assert Header(p) == header by {
      if EndsWithBase64Marker(header) {
        assert p.mediaType == header[..|header| - |Base64Marker|];
        assert header == p.mediaType + Base64Marker;
      } else {
        assert p.mediaType == header;
      }
    }
    SplitAround(rest, k);
    assert rest == header + "," + p.data;
    BuildShape(p);
    assert u == Scheme + rest;
  }

  /**
   Parts `Parse` can give back: no comma in the media type, and a plain
   (non-base64) media type that does not itself end in ";base64".
   */
  predicate Unambiguous(p: Parts) {
    ',' !in p.mediaType && (p.base64 || !EndsWithBase64Marker(p.mediaType))
  }

  /** The first comma of `header + "," + data` is the one after `header` when `header` has none. */
  lemma FirstCommaAfterHeader(header: string, data: string)
    requires ',' !in header
    ensures FirstIndexOf(header + "," + data, ',') == Some(|header|)
  {
    var rest := header + "," + data;
    var k := FirstIndexOf(rest, ',');
    assert rest[|header|] == ',';
    assert k.Some?;
  }

  /** The header a built URL carries between the scheme and the comma. */
  function Header(p: Parts): string {
    p.mediaType + (if p.base64 then Base64Marker else "")
  }

  lemma BuildShape(p: Parts)
    ensures Build(p) == Scheme + (Header(p) + "," + p.data)
    ensures Build(p)[..|Scheme|] == Scheme
    ensures Build(p)[|Scheme|..] == Header(p) + "," + p.data
  {
  }

  lemma HeaderMarker(p: Parts)
    requires Unambiguous(p)
    ensures ',' !in Header(p)
    ensures EndsWithBase64Marker(Header(p)) <==> p.base64
    ensures p.base64 ==> Header(p)[..|Header(p)| - |Base64Marker|] == p.mediaType
  {
    assert ',' !in Base64Marker;
    if p.base64 {
      assert Header(p)[|Header(p)| - |Base64Marker|..] == Base64Marker;
    }
  }

  /** Parsing undoes building, whatever the payload holds. */
  lemma ParseBuild(p: Parts)
    requires Unambiguous(p)
    ensures Parse(Build(p)) == Some(p)
  {
    var u := Build(p);
    var header := Header(p);
    BuildShape(p);
    HeaderMarker(p);
    var rest := u[|Scheme|..];
    assert rest == header + "," + p.data;
    FirstCommaAfterHeader(header, p.data);
    assert rest[..|header|] == header;
    assert rest[|header| + 1..] == p.data;
    if p.base64 {
      assert Parse(u) == Some(Parts(header[..|header| - |Base64Marker|], true, p.data));
    } else {
      assert header == p.mediaType;
      assert Parse(u) == Some(Parts(header, false, p.data));
    }
  }
}

=== FILE: info.dfy ===
/**
 The signature information screen (app/info.tsx): one image slot and one
 camera flag shared by the "original" and the "scanned" sections, the camera
 component's facing toggle, the image picker, and the save button whose
 3-second timer navigates to the analyze screen.

 The picker's result and the timer's firing are events given to the model;
 the camera, the picker and the clock themselves are not modelled.
 */
module Info {
  import opened Common

  // The camera component (`CaptureSignature`).

  datatype Facing = Back | Front

  const InitialFacing: Facing := Back

  /** `toggleCameraFacing`: back becomes front and front becomes back. */
  function ToggleCameraFacing(f: Facing): (r: Facing)
    ensures r != f
  {
    if f == Back then Front else Back
  }

  lemma ToggleTwiceIsIdentity(f: Facing)
    ensures ToggleCameraFacing(ToggleCameraFacing(f)) == f
  {
  }

  // The screen (`InfoScreen`).

  datatype Section = Original | Scanned

  datatype PickerResult = Canceled | Picked(uri: string)

  /**
   The screen state. `pendingTimers` counts the `setTimeout` callbacks that
   are scheduled and have not fired yet.
   */
  datatype InfoState = InfoState(
    imageUri: Option<string>,
    isSaving: bool,
    isCapturing: bool,
    pendingTimers: nat)

  function Initial(): (s: InfoState)
    ensures s.imageUri == None && !s.isSaving && !s.isCapturing && s.pendingTimers == 0
    ensures Valid(s)
  {
    InfoState(None, false, false, 0)
  }

  const SaveDelayMs: nat := 3000

  /** `handleImageCaptured(uri)`: store the image and close the camera. */
  function HandleImageCaptured(s: InfoState, uri: string): (r: InfoState)
    ensures r.imageUri == Some(uri) && !r.isCapturing
    ensures r.isSaving == s.isSaving && r.pendingTimers == s.pendingTimers
  {
    s.(imageUri := Some(uri), isCapturing := false)
  }

  /** The end of `handleUploadImage`: a cancelled pick keeps the current image. */
  function HandleUploadImage(s: InfoState, result: PickerResult): (r: InfoState)
    ensures result.Canceled? ==> r == s
    ensures result.Picked? ==> r.imageUri == Some(result.uri)
    ensures r.isSaving == s.isSaving && r.isCapturing == s.isCapturing && r.pendingTimers == s.pendingTimers
  {
    match result
    case Canceled => s
    case Picked(uri) => s.(imageUri := Some(uri))
  }

  /** `handleSaving`: set `isSaving` and schedule the 3-second timer. */
  function HandleSaving(s: InfoState): (r: Run<InfoState>)
    ensures r.state.isSaving && r.state.pendingTimers == s.pendingTimers + 1
    ensures r.state.imageUri == s.imageUri && r.state.isCapturing == s.isCapturing
    ensures r.effects == [ScheduleTimer(SaveDelayMs)]
  {
    Run(s.(isSaving := true, pendingTimers := s.pendingTimers + 1), [ScheduleTimer(SaveDelayMs)])
  }

  /** A scheduled save timer fires: clear `isSaving` and go to the analyze screen. */
  function TimerFires(s: InfoState): (r: Run<InfoState>)
    ensures s.pendingTimers == 0 ==> r == Run(s, [])
    ensures s.pendingTimers > 0 ==>
      && !r.state.isSaving
      && r.state.pendingTimers == s.pendingTimers - 1
      && r.effects == [Navigate(AnalyzeRoute)]
    ensures r.state.imageUri == s.imageUri && r.state.isCapturing == s.isCapturing
  {
    if s.pendingTimers == 0 then Run(s, [])
    else Run(s.(isSaving := false, pendingTimers := s.pendingTimers - 1), [Navigate(AnalyzeRoute)])
  }

  /** What can happen to the screen. */
  datatype Event =
    | TakePhoto(section: Section)                      // "Take a photo": setIsCapturing(true)
    | Capture(section: Section)                        // the camera's "Capture" button
    | Upload(section: Section, result: PickerResult)   // "Upload Signature" and the picker's answer
    | PressSave                                        // "Save & Proceed"
    | TimerFired                                       // the save timer's callback

  /**
   One event. The photo and upload buttons are only on screen while the camera
   is closed, and the save button is disabled while saving. "Take a photo"
   opens the camera, an upload and an accepted save press run their handlers,
   and the timer's callback clears the saving state. The camera's
   `captureImage` asks for permissions and never calls `onImageCaptured`.
   */
  function Step(s: InfoState, e: Event): (r: Run<InfoState>)
    ensures r.state.imageUri != s.imageUri ==> e.Upload? && e.result.Picked? && !s.isCapturing
    ensures s.isCapturing ==> r.state.isCapturing
    ensures e.Capture? ==> r == Run(s, [])
    ensures e == PressSave && s.isSaving ==> r == Run(s, [])
    ensures e.TakePhoto? ==> r == Run(s.(isCapturing := true), [])
    ensures e.Upload? && !s.isCapturing ==> r == Run(HandleUploadImage(s, e.result), [])
    ensures e == PressSave && !s.isSaving ==> r == HandleSaving(s)
    ensures e == TimerFired ==> r == TimerFires(s)
  {
    match e
    case TakePhoto(_) => Run(s.(isCapturing := true), [])
    case Capture(_) => Run(s, [])
    case Upload(_, result) => if s.isCapturing then Run(s, []) else Run(HandleUploadImage(s, result), [])
    case PressSave => if s.isSaving then Run(s, []) else HandleSaving(s)
    case TimerFired => TimerFires(s)
  }

  /** The same event sent from the other section. */
  function InSection(e: Event, section: Section): Event {
    match e
    case TakePhoto(_) => TakePhoto(section)
    case Capture(_) => Capture(section)
    case Upload(_, result) => Upload(section, result)
    case PressSave => PressSave
    case TimerFired => TimerFired
  }

  /**
   The two sections share the image and the camera flag: a photo, capture,
   upload, save or timer event does the same whichever section it comes from.
   Each section's camera keeps its own facing, which is not part of this state.
   */
  lemma SectionsShareState(s: InfoState, e: Event, section: Section)
    ensures Step(s, InSection(e, section)) == Step(s, e)
  {
  }

  /** At most one save timer is ever pending, and exactly while saving. */
  predicate Valid(s: InfoState) {
    s.pendingTimers <= 1 && (s.isSaving <==> s.pendingTimers == 1)
  }

  lemma StepPreservesValid(s: InfoState, e: Event)
    requires Valid(s)
    ensures Valid(Step(s, e).state)
  {
  }

  /** The screen after the events `es`, with every effect they produced. */
  function RunEvents(s: InfoState, es: seq<Event>): Run<InfoState>
    decreases |es|
  {
    if es == [] then Run(s, [])
    else
      var first := Step(s, es[0]);
      var rest := RunEvents(first.state, es[1..]);
      Run(rest.state, first.effects + rest.effects)
  }

  /** From any valid screen, the initial one included, no sequence of events leaves two save timers pending. */
  lemma {:induction false} RunPreservesValid(s: InfoState, es: seq<Event>)
    requires Valid(s)
    ensures Valid(RunEvents(s, es).state)
    decreases |es|
  {
    if es != [] {
      StepPreservesValid(s, es[0]);
      RunPreservesValid(Step(s, es[0]).state, es[1..]);
    }
  }

  /**
   Once the camera is open it stays open, and the image never changes again:
   nothing calls `handleImageCaptured`, and the upload buttons are hidden.
   */
  lemma {:induction false} CameraNeverCloses(s: InfoState, es: seq<Event>)
    requires s.isCapturing
    ensures RunEvents(s, es).state.isCapturing
    ensures RunEvents(s, es).state.imageUri == s.imageUri
    decreases |es|
  {
    if es != [] {
      CameraNeverCloses(Step(s, es[0]).state, es[1..]);
    }
  }

  const SavingLabel: string := "Saving"
  const SaveLabel: string := "Save & Proceed"

  /** The save button's caption, and whether it accepts presses. */
  function SaveButton(s: InfoState): (r: (string, bool))
    ensures r.0 == SavingLabel <==> s.isSaving
    ensures r.1 <==> !s.isSaving
  {
    if s.isSaving then (SavingLabel, false) else (SaveLabel, true)
  }
}

=== FILE: menu.dfy ===
/**
 The menu screen (app/menu.tsx): the signature list, the logout dialog, the
 list fetch and the guard that runs when the screen mounts.
 */
module Menu {
  import opened Common
  import opened DataUri
  import opened SessionStore
  import opened SignatureStore

  /** The two stores the menu reads and writes. */
  datatype MenuState = MenuState(list: SignatureStore.Store, sessionStore: SessionStore.Store)

  const ImagePrefix: string := "data:image/png;base64,"

  /**
   `convertBase64ToImageSource`: a PNG `data:` URL around the stored string,
   which is used as is.
   */
  function ConvertBase64ToImageSource(base64String: string): (r: string)
    ensures |r| == |ImagePrefix| + |base64String|
    ensures r[..|ImagePrefix|] == ImagePrefix && r[|ImagePrefix|..] == base64String
    ensures Parse(r) == Some(Parts("image/png", true, base64String))
  {
    var parts := Parts("image/png", true, base64String);
    assert ImagePrefix + base64String == Build(parts);
    assert ',' !in parts.mediaType;
    ParseBuild(parts);
    ImagePrefix + base64String
  }

  /** Different stored strings give different image sources. */
  lemma ConvertInjective(a: string, b: string)
    requires ConvertBase64ToImageSource(a) == ConvertBase64ToImageSource(b)
    ensures a == b
  {
  }

  const LogoutQuestion: string := "Are you sure you want to log out?"
  const LogoutErrorMessage: string := "Error logging out. Please try again in a moment."

  /** The button the user picks in the logout confirmation dialog. */
  datatype Choice = Cancel | ConfirmLogout

  /**
   `handleLogout`: a confirmation dialog, then, on "Logout", `signOut`. An
   error alerts and returns. Success clears both stores and navigates to
   sign-in. A rejected `signOut` is caught and logged: the stores are kept,
   but the navigation after the `try` still runs. The dialog is recorded by
   its question; its "Confirmation" title and button labels are not modelled.
   */
  function HandleLogout(m: MenuState, choice: Choice, outcome: Outcome): (r: Run<MenuState>)
    ensures |r.effects| >= 1 && r.effects[0] == ShowAlert(LogoutQuestion)
    ensures choice == Cancel ==> r == Run(m, [ShowAlert(LogoutQuestion)])
    ensures Count(r.effects, IsBackendRequest) == (if choice == ConfirmLogout then 1 else 0)
    ensures r.state != m ==> choice == ConfirmLogout && outcome == Ok
    ensures choice == ConfirmLogout && outcome == Ok ==>
      |r.state.list.signatures| == 0 && r.state.sessionStore.session == Empty && !SignedIn(r.state.sessionStore)
    ensures Navigate(SignInRoute) in r.effects <==> choice == ConfirmLogout && !outcome.Failed?
    ensures ShowAlert(LogoutErrorMessage) in r.effects <==> choice == ConfirmLogout && outcome.Failed?
  {
    var ask := [ShowAlert(LogoutQuestion)];
    match choice
    case Cancel => Run(m, ask)
    case ConfirmLogout =>
      var call := ask + [SignOutRequest];
      assert Count(call, IsBackendRequest) == 1 by {
        CountAppend(ask, [SignOutRequest], IsBackendRequest);
      }
      match outcome
      case Failed(_) =>
        CountAppend(call, [ShowAlert(LogoutErrorMessage)], IsBackendRequest);
        Run(m, call + [ShowAlert(LogoutErrorMessage)])
      case Ok =>
        var cleared := MenuState(SetSignatures(m.list, []), SetSession(m.sessionStore, Empty));
        CountAppend(call, [Navigate(SignInRoute)], IsBackendRequest);
        Run(cleared, call + [Navigate(SignInRoute)])
      case Threw =>
        CountAppend(call, [Navigate(SignInRoute)], IsBackendRequest);
        Run(m, call + [Navigate(SignInRoute)])
  }

  /**
   The end of `getSignatures`: `setSignatures(data || [])`. The error, if
   any, is only logged, so the list is replaced even then; the session is
   left alone.
   */
  function ReceiveSignatures(m: MenuState, data: Option<seq<SignatureInfo>>, error: Option<string>): (r: MenuState)
    ensures data.Some? ==> r.list.signatures == data.value
    ensures data.None? ==> |r.list.signatures| == 0
    ensures r.sessionStore == m.sessionStore
  {
    m.(list := SetSignatures(m.list, data.GetOr([])))
  }

  /** A reported error changes nothing about what the list becomes. */
  lemma ReceiveIgnoresError(m: MenuState, data: Option<seq<SignatureInfo>>, e1: Option<string>, e2: Option<string>)
    ensures ReceiveSignatures(m, data, e1) == ReceiveSignatures(m, data, e2)
  {
  }

  /**
   The mount effect: without a truthy `access_token` it navigates to sign-in,
   and in either case it then starts the list fetch for the session's user id.
   */
  function OnMount(m: MenuState): (r: seq<Effect>)
    ensures Navigate(SignInRoute) in r <==> !SignedIn(m.sessionStore)
    ensures |r| >= 1 && r[|r| - 1] == SelectSignatures(m.sessionStore.session.id)
    ensures Count(r, IsBackendRequest) == 1
  {
    var fetch := [SelectSignatures(m.sessionStore.session.id)];
    var guard := if SignedIn(m.sessionStore) then [] else [Navigate(SignInRoute)];
    CountAppend(guard, fetch, IsBackendRequest);
    guard + fetch
  }

  /** After a completed logout, mounting the menu again redirects to sign-in. */
  lemma MountAfterLogoutRedirects(m: MenuState)
    ensures Navigate(SignInRoute) in OnMount(HandleLogout(m, ConfirmLogout, Ok).state)
  {
  }
}

=== FILE: password_policy.dfy ===
/**
 The sign-up password policy (`validatePassword` in app/auth/signup.tsx): the
 ECMAScript regular expression

     /^(?=.*\d)(?=.*[a-z])(?=.*[A-Z]).{6,20}$/

 tested against the password, with no flags. Without the `s` flag `.` matches
 any code unit except the four line terminators; without the `u` flag the
 pattern runs over UTF-16 code units; without the `i` flag the classes are
 ASCII-only and case-sensitive; without the `m` flag `^` and `$` match only
 at the ends of the whole input.

 `Matches` follows the pattern piece by piece; `ValidatePassword` is that
 test, and its contract states the policy it amounts to.
 */
module PasswordPolicy {
  import opened Common

  /** LF, CR, LINE SEPARATOR and PARAGRAPH SEPARATOR. */
  predicate IsLineTerminator(c: CodeUnit) {
    c == 0x0A || c == 0x0D || c == 0x2028 || c == 0x2029
  }

  /** The atom `.` without the `s` flag. */
  predicate MatchesDot(c: CodeUnit) {
    !IsLineTerminator(c)
  }

  /** `\d`: ASCII `0`-`9`. */
  predicate IsDigit(c: CodeUnit) {
    0x30 <= c <= 0x39
  }

  /** `[a-z]`. */
  predicate IsLower(c: CodeUnit) {
    0x61 <= c <= 0x7A
  }

  /** `[A-Z]`. */
  predicate IsUpper(c: CodeUnit) {
    0x41 <= c <= 0x5A
  }

  /** `p[i..j]` is a run the atom `.` can match unit by unit. */
  predicate DotRun(p: JsString, i: int, j: int) {
    0 <= i <= j <= |p| && forall k :: i <= k < j ==> MatchesDot(p[k])
  }

  /**
   The lookahead `(?=.*X)` at position 0: some choice of the `.*` length `k`
   leaves a unit of class `X` right after it.
   */
  predicate LookaheadAtStart(p: JsString, unitClass: CodeUnit -> bool) {
    exists k :: 0 <= k < |p| && DotRun(p, 0, k) && unitClass(p[k])
  }

  /** `^.{6,20}$`: `n` dots from the start, with `$` right after them. */
  predicate BodyMatches(p: JsString) {
    exists n :: 6 <= n <= 20 && DotRun(p, 0, n) && n == |p|
  }

  /** The whole pattern, anchored at position 0 by `^`. */
  predicate Matches(p: JsString) {
    && LookaheadAtStart(p, IsDigit)
    && LookaheadAtStart(p, IsLower)
    && LookaheadAtStart(p, IsUpper)
    && BodyMatches(p)
  }

  predicate Contains(p: JsString, unitClass: CodeUnit -> bool) {
    exists i :: 0 <= i < |p| && unitClass(p[i])
  }

  predicate NoLineTerminator(p: JsString) {
    forall i :: 0 <= i < |p| ==> !IsLineTerminator(p[i])
  }

  /**
   `validatePassword(p)`: the regular expression test. It passes exactly
   when `p` is 6 to 20 code units long, has an ASCII digit, an ASCII lower-case
   letter and an ASCII upper-case letter, and holds no line terminator.
   */
  function ValidatePassword(p: JsString): (ok: bool)
    ensures ok <==>
      && 6 <= |p| <= 20
      && Contains(p, IsDigit)
      && Contains(p, IsLower)
      && Contains(p, IsUpper)
      && NoLineTerminator(p)
  {
    MatchesCharacterised(p);
    Matches(p)
  }

  /** On a password free of line terminators, `(?=.*X)` just asks for some unit of class `X`. */
  lemma LookaheadIsContains(p: JsString, unitClass: CodeUnit -> bool)
    requires NoLineTerminator(p)
    ensures LookaheadAtStart(p, unitClass) <==> Contains(p, unitClass)
  {
  }

  /** The pattern, read as a policy. */
  lemma MatchesCharacterised(p: JsString)
    ensures Matches(p) <==>
      && 6 <= |p| <= 20
      && Contains(p, IsDigit)
      && Contains(p, IsLower)
      && Contains(p, IsUpper)
      && NoLineTerminator(p)
  {
    if BodyMatches(p) {
      var n :| 6 <= n <= 20 && DotRun(p, 0, n) && n == |p|;
      assert NoLineTerminator(p);
    }
    if 6 <= |p| <= 20 && NoLineTerminator(p) {
      assert DotRun(p, 0, |p|);
      assert BodyMatches(p);
    }
    if NoLineTerminator(p) {
      LookaheadIsContains(p, IsDigit);
      LookaheadIsContains(p, IsLower);
      LookaheadIsContains(p, IsUpper);
    }
  }

  /** A password outside 6..20 code units is rejected whatever it holds. */
  lemma LengthOutOfRangeRejected(p: JsString)
    requires |p| < 6 || |p| > 20
    ensures !ValidatePassword(p)
  {
  }

  /** A line terminator anywhere rejects the password, even when every class is present. */
  lemma LineTerminatorRejected(p: JsString, i: int)
    requires 0 <= i < |p| && IsLineTerminator(p[i])
    ensures !ValidatePassword(p)
  {
  }

  /** "Abc123" passes: one upper-case, two lower-case letters and three digits. */
  lemma ExampleAccepted()
    ensures ValidatePassword([0x41, 0x62, 0x63, 0x31, 0x32, 0x33])
  {
    var p: JsString := [0x41, 0x62, 0x63, 0x31, 0x32, 0x33];
    assert IsUpper(p[0]) && IsLower(p[1]) && IsDigit(p[3]);
  }

  /** "abc123" fails: it has no upper-case letter. */
  lemma ExampleNoUpperRejected()
    ensures !ValidatePassword([0x61, 0x62, 0x63, 0x31, 0x32, 0x33])
  {
  }
}

=== FILE: session_store.dfy ===
/**
 The session store (`useSessionStore`): the signed-in user's session record,
 created as the empty object `{}` and replaced as a whole by `setSession`.
 */
module SessionStore {
  import opened Common

  /** A session object; a field the object does not carry is `None`. */
  datatype Session = Session(
    id: Option<string>,
    name: Option<string>,
    email: Option<string>,
    accessToken: Option<string>,
    role: Option<string>,
    expiration: Option<string>)

  /** The object literal `{}`. */
  const Empty: Session := Session(None, None, None, None, None, None)

  datatype Store = Store(session: Session)

  /** The store as created holds `{}`, which carries no access token. */
  function Initial(): (st: Store)
    ensures st.session == Empty
    ensures st.session.accessToken == None && st.session.id == None
    ensures !SignedIn(st)
  {
    Store(Empty)
  }

  /**
   The menu's signed-in test `session.access_token` (app/menu.tsx): a token
   that is present and non-empty.
   */
  predicate SignedIn(st: Store) {
    Truthy(st.session.accessToken)
  }

  /**
   `set({ session })`: the new object replaces the old one; no field of the
   old session survives, even where the new object lacks that field.
   */
  function SetSession(st: Store, s: Session): (r: Store)
    ensures r.session == s
    ensures SignedIn(r) <==> Truthy(s.accessToken)
  {
    Store(s)
  }

  /** Setting the same session twice equals setting it once. */
  lemma SetSessionIdempotent(st: Store, s: Session)
    ensures SetSession(SetSession(st, s), s) == SetSession(st, s)
  {
  }

  /** Of two successive `setSession` calls, the second decides the store. */
  lemma SetSessionLastWriteWins(st: Store, s: Session, t: Session)
    ensures SetSession(SetSession(st, s), t) == SetSession(st, t)
  {
  }

  /** Logging out with `setSession({})` always leaves the user signed out. */
  lemma ClearedSessionIsSignedOut(st: Store)
    ensures !SignedIn(SetSession(st, Empty))
    ensures SetSession(st, Empty) == Initial()
  {
  }
}

=== FILE: signature_store.dfy ===
/**
 The signature list store (`useSignatureStore`): the signature rows shown on
 the menu, created empty and replaced wholesale by `setSignatures`.
 */
module SignatureStore {
  import opened Common

  /** One row of the `signature_infos` table as the client reads it. */
  datatype SignatureInfo = SignatureInfo(
    signatureId: int,
    title: string,
    author: string,
    originalSignatureUrl: string,
    scannedSignatureUrl: string,
    userId: Option<string>,
    createdAt: string)

  datatype Store = Store(signatures: seq<SignatureInfo>)

  function Initial(): (st: Store)
    ensures |st.signatures| == 0
  {
    Store([])
  }

  /** `set({ signatures })`: the list becomes exactly the argument, element for element. */
  function SetSignatures(st: Store, signatures: seq<SignatureInfo>): (r: Store)
    ensures |r.signatures| == |signatures|
    ensures forall i :: 0 <= i < |signatures| ==> r.signatures[i] == signatures[i]
  {
    Store(signatures)
  }

  lemma SetSignaturesIdempotent(st: Store, xs: seq<SignatureInfo>)
    ensures SetSignatures(SetSignatures(st, xs), xs) == SetSignatures(st, xs)
  {
  }

  lemma SetSignaturesLastWriteWins(st: Store, xs: seq<SignatureInfo>, ys: seq<SignatureInfo>)
    ensures SetSignatures(SetSignatures(st, xs), ys) == SetSignatures(st, ys)
  {
  }

  /** Clearing with `setSignatures([])` empties the list whatever it held. */
  lemma ClearEmpties(st: Store)
    ensures SetSignatures(st, []) == Initial()
  {
  }
}

=== FILE: signin.dfy ===
/**
 The sign-in screen (app/auth/signin.tsx). `signInWithEmail` sets `loading`,
 awaits `supabase.auth.signInWithPassword({ email, password })` with no
 client-side check first, and then records an in-screen alert: an error
 clears `loading`, success navigates to the info screen and leaves `loading`
 set. The alert record is screen-local state that starts as `null`; the
 screen's markup never renders it.
 */
module SignIn {
  import opened Common
  import opened UserStore
  import opened Alerts
  import SignUp

  const LoginSuccessful: string := "Login successful"

  datatype Screen = Screen(user: User, alert: Option<AlertRecord>)

  /** The screen as mounted over the current user store. */
  function Mount(u: User): (s: Screen)
    ensures s.alert == None && s.user == u
  {
    Screen(u, None)
  }

  /** `signInWithEmail` up to the `await`: `loading` is set, then the request goes out. */
  function BeginSignIn(s: Screen): (r: Run<Screen>)
    ensures r.state.user.loading && r.state.alert == s.alert
    ensures forall f :: f != Loading ==> Get(r.state.user, f) == Get(s.user, f)
    ensures r.effects == [SignInRequest(s.user.email, s.user.password)]
  {
    Run(s.(user := SetLoading(s.user, true)), [SignInRequest(s.user.email, s.user.password)])
  }

  /**
   `signInWithEmail` after the `await`. Only the error branch clears
   `loading`; a rejected promise skips both branches.
   */
  function ResumeSignIn(s: Screen, outcome: Outcome): (r: Run<Screen>)
    ensures forall f :: f != Loading ==> Get(r.state.user, f) == Get(s.user, f)
    ensures outcome.Failed? ==>
      && !r.state.user.loading
      && r.state.alert == Some(AlertRecord(Error, outcome.message))
      && r.effects == []
    ensures outcome == Ok ==>
      && r.state.user == s.user
      && r.state.alert == Some(AlertRecord(Success, LoginSuccessful))
      && r.effects == [Navigate(InfoRoute)]
    ensures outcome == Threw ==> r == Run(s, [])
  {
    match outcome
    case Failed(message) => Run(Screen(SetLoading(s.user, false), Some(AlertRecord(Error, message))), [])
    case Ok => Run(s.(alert := Some(AlertRecord(Success, LoginSuccessful))), [Navigate(InfoRoute)])
    case Threw => Run(s, [])
  }

  /** The whole handler, with the backend call ending in `outcome`. */
  function SignInWithEmail(s: Screen, outcome: Outcome): (r: Run<Screen>)
    ensures |r.effects| >= 1 && r.effects[0] == SignInRequest(s.user.email, s.user.password)
    ensures Count(r.effects, IsBackendRequest) == 1
    ensures forall f :: f != Loading ==> Get(r.state.user, f) == Get(s.user, f)
    ensures r.state.user.loading <==> !outcome.Failed?
    ensures outcome.Failed? ==> r.state.alert == Some(AlertRecord(Error, outcome.message))
    ensures outcome == Ok ==> r.state.alert == Some(AlertRecord(Success, LoginSuccessful))
    ensures outcome == Threw ==> r.state.alert == s.alert
    ensures Navigate(InfoRoute) in r.effects <==> outcome == Ok
  {
    var begun := BeginSignIn(s);
    var rest := ResumeSignIn(begun.state, outcome);
    CountAppend(begun.effects, rest.effects, IsBackendRequest);
    Run(rest.state, begun.effects + rest.effects)
  }

  /**
   The Login button carries no `disabled` guard: a run of presses, whose
   backend calls end in `outcomes`, issues one sign-in request per press,
   even while `loading` is set.
   */
  function PressLogin(s: Screen, outcomes: seq<Outcome>): (r: Run<Screen>)
    ensures Count(r.effects, IsBackendRequest) == |outcomes|
    ensures forall f :: f != Loading ==> Get(r.state.user, f) == Get(s.user, f)
    decreases |outcomes|
  {
    if outcomes == [] then Run(s, [])
    else
      var first := SignInWithEmail(s, outcomes[0]);
      var rest := PressLogin(first.state, outcomes[1..]);
      CountAppend(first.effects, rest.effects, IsBackendRequest);
      Run(rest.state, first.effects + rest.effects)
  }

  /** After a successful sign-in `loading` is still set: nothing on that path clears it. */
  lemma LoadingStaysSetAfterSuccess(s: Screen)
    ensures SignInWithEmail(s, Ok).state.user.loading
  {
  }

  /** No password is screened before the request: even one the sign-up policy rejects is sent. */
  lemma NoClientValidation(s: Screen, outcome: Outcome)
    ensures SignInRequest(s.user.email, s.user.password) in SignInWithEmail(s, outcome).effects
  {
  }

  /**
   `loading` is one field of the shared user store, so a sign-up stuck after
   a rejected call is released by a failed sign-in: the error branch clears
   `loading`, and the next press on "Sign Up" sends the request again.
   */
  lemma FailedSignInReenablesSignUp(u: User, message: string, later: Outcome)
    requires SignUp.FirstFailedCheck(u) == None && !u.loading
    ensures var stuck := SignUp.PressSignUp(u, Threw).state;
      var released := SignInWithEmail(Mount(stuck), Failed(message)).state.user;
      && stuck.loading
      && !released.loading
      && SignUp.PressSignUp(released, later).effects[0] == SignUpRequest(u.email, u.password)
  {
    var stuck := SignUp.PressSignUp(u, Threw).state;
    var released := SignInWithEmail(Mount(stuck), Failed(message)).state.user;
    assert Get(released, Password) == Get(u, Password);
    assert Get(released, ConfirmPassword) == Get(u, ConfirmPassword);
    assert Get(released, IsChecked) == Get(u, IsChecked);
    assert Get(released, Email) == Get(u, Email);
  }
}

=== FILE: signup.dfy ===
/**
 The sign-up screen (app/auth/signup.tsx). `signUpWithEmail` runs three
 checks in order (password policy, confirmation, terms); the first that fails
 raises its native alert and returns before any backend call. When all pass
 it sets `loading`, awaits `supabase.auth.signUp({ email, password })`, and
 on resolution alerts, navigates on success, and clears `loading`.

 The handler is split at its `await`: `BeginSignUp` is what runs before it,
 `ResumeSignUp` what runs after the backend call ends with a given outcome.
 */
module SignUp {
  import opened Common
  import opened UserStore
  import opened PasswordPolicy

  const PolicyMessage: string :=
    "Password must contain at least 1 uppercase letter, 1 lowercase letter, and 1 number"
  const MismatchMessage: string := "Passwords do not match!"
  const TermsMessage: string := "You must agree to the terms and conditions."
  const CheckInboxMessage: string := "Please check your inbox for email verification!"

  /** The three client-side checks, in the order they run. */
  datatype Check = PolicyCheck | MatchCheck | TermsCheck

  function CheckMessage(c: Check): string {
    match c
    case PolicyCheck => PolicyMessage
    case MatchCheck => MismatchMessage
    case TermsCheck => TermsMessage
  }

  /**
   The check that stops the submission, if any. Each check is reported only
   when every earlier one passed; later failures are then not reported.
   */
  function FirstFailedCheck(u: User): (r: Option<Check>)
    ensures r == Some(PolicyCheck) <==> !ValidatePassword(u.password)
    ensures r == Some(MatchCheck) <==> ValidatePassword(u.password) && u.password != u.confirmPassword
    ensures r == Some(TermsCheck) <==>
      ValidatePassword(u.password) && u.password == u.confirmPassword && !u.isChecked
    ensures r == None <==>
      ValidatePassword(u.password) && u.password == u.confirmPassword && u.isChecked
  {
    if !ValidatePassword(u.password) then Some(PolicyCheck)
    else if u.password != u.confirmPassword then Some(MatchCheck)
    else if !u.isChecked then Some(TermsCheck)
    else None
  }

  /** The handler suspended at its `await`, or finished before reaching it. */
  datatype Started =
    | Rejected(user: User, alert: string)
    | Awaiting(user: User, request: Effect)

  /** `signUpWithEmail` up to the `await`. */
  function BeginSignUp(u: User): (r: Started)
    ensures r.Rejected? <==> FirstFailedCheck(u).Some?
    ensures r.Rejected? ==> r.user == u && r.alert == CheckMessage(FirstFailedCheck(u).value)
    ensures r.Awaiting? ==>
      && r.user.loading
      && (forall f :: f != Loading ==> Get(r.user, f) == Get(u, f))
      && r.request == SignUpRequest(u.email, u.password)
  {
    match FirstFailedCheck(u)
    case Some(c) => Rejected(u, CheckMessage(c))
    case None => Awaiting(SetLoading(u, true), SignUpRequest(u.email, u.password))
  }

  /**
   `signUpWithEmail` after the `await`. An error alerts its message; success
   alerts and navigates to the verification screen; both then clear
   `loading`. A rejected promise ends the handler at the `await`, so nothing
   after it runs and `loading` stays set.
   */
  function ResumeSignUp(u: User, outcome: Outcome): (r: Run<User>)
    ensures outcome != Threw ==>
      && !r.state.loading
      && forall f :: f != Loading ==> Get(r.state, f) == Get(u, f)
    ensures outcome == Threw ==> r == Run(u, [])
    ensures Navigate(VerificationRoute) in r.effects <==> outcome == Ok
    ensures outcome.Failed? ==> r.effects == [ShowAlert(outcome.message)]
    ensures outcome == Ok ==> r.effects == [ShowAlert(CheckInboxMessage), Navigate(VerificationRoute)]
    ensures forall i :: 0 <= i < |r.effects| ==> !IsBackendRequest(r.effects[i])
  {
    match outcome
    case Failed(message) => Run(SetLoading(u, false), [ShowAlert(message)])
    case Ok => Run(SetLoading(u, false), [ShowAlert(CheckInboxMessage), Navigate(VerificationRoute)])
    case Threw => Run(u, [])
  }

  /** The whole handler, with the backend call ending in `outcome`. */
  function SignUpWithEmail(u: User, outcome: Outcome): (r: Run<User>)
    ensures FirstFailedCheck(u).Some? ==>
      r == Run(u, [ShowAlert(CheckMessage(FirstFailedCheck(u).value))])
    ensures Count(r.effects, IsBackendRequest) == (if FirstFailedCheck(u) == None then 1 else 0)
    ensures FirstFailedCheck(u) == None ==> r.effects[0] == SignUpRequest(u.email, u.password)
    ensures FirstFailedCheck(u) == None && outcome != Threw ==>
      !r.state.loading && forall f :: f != Loading ==> Get(r.state, f) == Get(u, f)
    ensures Navigate(VerificationRoute) in r.effects <==> FirstFailedCheck(u) == None && outcome == Ok
  {
    match BeginSignUp(u)
    case Rejected(w, alert) => Run(w, [ShowAlert(alert)])
    case Awaiting(w, request) =>
      var rest := ResumeSignUp(w, outcome);
      CountAppend([request], rest.effects, IsBackendRequest);
      Run(rest.state, [request] + rest.effects)
  }

  /** A press on "Sign Up": the button is disabled while `loading` is set. */
  function PressSignUp(u: User, outcome: Outcome): (r: Run<User>)
    ensures u.loading ==> r == Run(u, [])
    ensures !u.loading ==> r == SignUpWithEmail(u, outcome)
  {
    if u.loading then Run(u, []) else SignUpWithEmail(u, outcome)
  }

  /** The terms checkbox: `setIsChecked(!isChecked)`. */
  function ToggleTerms(u: User): (r: User)
    ensures r.isChecked == !u.isChecked
    ensures forall f :: f != IsChecked ==> Get(r, f) == Get(u, f)
  {
    SetIsChecked(u, !u.isChecked)
  }

  /** The `name` field is never sent: the handler's effects do not depend on it. */
  lemma NameNotSent(u: User, name: JsString, outcome: Outcome)
    ensures SignUpWithEmail(SetName(u, name), outcome).effects == SignUpWithEmail(u, outcome).effects
  {
  }

  /**
   A password that breaks the policy is reported as such, whatever the
   confirmation and the checkbox hold.
   */
  lemma PolicyReportedFirst(u: User, outcome: Outcome)
    requires !ValidatePassword(u.password)
    ensures SignUpWithEmail(u, outcome) == Run(u, [ShowAlert(PolicyMessage)])
  {
  }

  /**
   When the backend call rejects, `loading` stays set and the disabled button
   ignores later presses until something else clears `loading` (a failed
   sign-in does: `SignIn.FailedSignInReenablesSignUp`).
   */
  lemma RejectionDisablesButton(u: User, later: Outcome)
    requires FirstFailedCheck(u) == None && !u.loading
    ensures var after := PressSignUp(u, Threw).state;
      after.loading && PressSignUp(after, later) == Run(after, [])
  {
  }
}

=== FILE: user_store.dfy ===
/**
 The user form store (`useUserStore`): the fields shared by the sign-up and
 sign-in screens, and one setter per field. Each setter is a zustand
 `set({ field })`, which replaces that one field and keeps the rest.
 */
module UserStore {
  import opened Common

  datatype User = User(
    name: JsString,
    email: JsString,
    password: JsString,
    confirmPassword: JsString,
    isPasswordVisible: bool,
    loading: bool,
    isChecked: bool)

  /** The seven fields, so that "every other field" can be quantified over. */
  datatype Field = Name | Email | Password | ConfirmPassword | IsPasswordVisible | Loading | IsChecked

  datatype FieldValue = Text(text: JsString) | Flag(flag: bool)

  /** Reads one field. */
  function Get(u: User, f: Field): FieldValue {
    match f
    case Name => Text(u.name)
    case Email => Text(u.email)
    case Password => Text(u.password)
    case ConfirmPassword => Text(u.confirmPassword)
    case IsPasswordVisible => Flag(u.isPasswordVisible)
    case Loading => Flag(u.loading)
    case IsChecked => Flag(u.isChecked)
  }

  predicate IsTextField(f: Field) {
    f == Name || f == Email || f == Password || f == ConfirmPassword
  }

  /** A value of the type the field is declared with. */
  predicate Fits(f: Field, v: FieldValue) {
    if IsTextField(f) then v.Text? else v.Flag?
  }

  /** The store as created: every string empty, every flag false. */
  function Initial(): (u: User)
    ensures forall f :: Get(u, f) == (if IsTextField(f) then Text([]) else Flag(false))
  {
    User([], [], [], [], false, false, false)
  }

  /** `set({ f: v })`: field `f` becomes `v`, every other field is kept. */
  function Set(u: User, f: Field, v: FieldValue): (r: User)
    requires Fits(f, v)
    ensures Get(r, f) == v
    ensures forall g :: g != f ==> Get(r, g) == Get(u, g)
  {
    match f
    case Name => u.(name := v.text)
    case Email => u.(email := v.text)
    case Password => u.(password := v.text)
    case ConfirmPassword => u.(confirmPassword := v.text)
    case IsPasswordVisible => u.(isPasswordVisible := v.flag)
    case Loading => u.(loading := v.flag)
    case IsChecked => u.(isChecked := v.flag)
  }

  /** Setting a field to the value it already has changes nothing. */
  lemma SetUnchanged(u: User, f: Field)
    requires Fits(f, Get(u, f))
    ensures Set(u, f, Get(u, f)) == u
  {
  }

  /** Applying the same setter twice equals applying it once. */
  lemma SetIdempotent(u: User, f: Field, v: FieldValue)
    requires Fits(f, v)
    ensures Set(Set(u, f, v), f, v) == Set(u, f, v)
  {
  }

  /** Two writes to one field: the last one wins. */
  lemma SetLastWriteWins(u: User, f: Field, v: FieldValue, w: FieldValue)
    requires Fits(f, v) && Fits(f, w)
    ensures Set(Set(u, f, v), f, w) == Set(u, f, w)
  {
  }

  /** Writes to two different fields commute. */
  lemma SetCommutes(u: User, f: Field, v: FieldValue, g: Field, w: FieldValue)
    requires f != g && Fits(f, v) && Fits(g, w)
    ensures Set(Set(u, f, v), g, w) == Set(Set(u, g, w), f, v)
  {
  }

  // The seven named setters of the store.

  function SetName(u: User, name: JsString): (r: User)
    ensures r == Set(u, Name, Text(name))
  {
    u.(name := name)
  }

  function SetEmail(u: User, email: JsString): (r: User)
    ensures r == Set(u, Email, Text(email))
  {
    u.(email := email)
  }

  function SetPassword(u: User, password: JsString): (r: User)
    ensures r == Set(u, Password, Text(password))
  {
    u.(password := password)
  }

  function SetConfirmPassword(u: User, confirmPassword: JsString): (r: User)
    ensures r == Set(u, ConfirmPassword, Text(confirmPassword))
  {
    u.(confirmPassword := confirmPassword)
  }

  function SetIsPasswordVisible(u: User, isPasswordVisible: bool): (r: User)
    ensures r == Set(u, IsPasswordVisible, Flag(isPasswordVisible))
  {
    u.(isPasswordVisible := isPasswordVisible)
  }

  function SetLoading(u: User, loading: bool): (r: User)
    ensures r == Set(u, Loading, Flag(loading))
  {
    u.(loading := loading)
  }

  function SetIsChecked(u: User, isChecked: bool): (r: User)
    ensures r == Set(u, IsChecked, Flag(isChecked))
  {
    u.(isChecked := isChecked)
  }

  /**
   The password-visibility toggle both auth screens define
   (`setIsPasswordVisible(!isPasswordVisible)`): it flips that one flag.
   */
  function TogglePasswordVisibility(u: User): (r: User)
    ensures r.isPasswordVisible == !u.isPasswordVisible
    ensures forall f :: f != IsPasswordVisible ==> Get(r, f) == Get(u, f)
  {
    SetIsPasswordVisible(u, !u.isPasswordVisible)
  }

  /** Pressing the eye icon twice restores the form as it was. */
  lemma ToggleTwiceIsIdentity(u: User)
    ensures TogglePasswordVisibility(TogglePasswordVisibility(u)) == u
  {
  }
}
